=== FILE: README.md ===
# Admin command station — a Dafny model of the manager handlers

The admin console has four manager screens: assessments, learning paths,
users and organizations. Each keeps its records in a local list and changes
that list only through a few handlers:

- `handleSubmit` creates a record or edits one.
- `handleDelete` removes a record after a confirmation.
- `handleAssign` (assessments and learning paths) merges a selection of
  organization names into one item's list.

Around the handlers sit the pure computations the screens display:

- the summary cards (counts, sums, distinct organizations);
- the user table's organization/role filter;
- the two-badges-plus-overflow organizations column;
- the assessment duration column.

The model states every handler as a pure function from the old list to the
new one. Its modules follow the program:

- `Seqs`: sequence vocabulary. `Dedup`/`Merge` model `[...new Set([...a, ...b])]`. `Filter` and `Sum` model `Array.filter` and `Array.reduce`.
- `Decimal`: the `${n}` rendering of integers, with a parser as its inverse.
- `Records`: the create/edit/delete shape the four managers share. A record is its `id`, the `form` fields that `{...record, ...formData}` overwrites, and the `rest` fields that only creation sets.
- `Catalog`: what assessments and learning paths share: assignment by union, the checkbox selection, the distinct-organization card and the badge column.
- `Assessments`, `LearningPaths`, `Users`, `Organizations`: one module per manager component.

`window.confirm`'s answer, `Date.now()` (the fresh id) and today's date
(`new Date().toISOString().split('T')[0]`) are parameters of the handlers.

Assignment is stored on the item side: each assessment or learning path
holds a list of organization names (`assignedOrgs`, `enrolledOrgs`). A
user's organization is a free string, empty by default. An organization's
admin, student and learning-path counts are stored numbers, not derived from
the user list.

## Model

| member | source | states |
|---|---|---|
| Seqs.Dedup | src/components/AssessmentManager.tsx:129 | `[...new Set(s)]` has no repeats, holds exactly the elements of `s`, and is no longer than `s` |
| Seqs.DedupFirstOccurrenceOrder | src/components/AssessmentManager.tsx:129 | a Set keeps insertion order: elements appear in the order of their first occurrence |
| Seqs.DedupOfDistinct | src/components/AssessmentManager.tsx:129 | a repeat-free list passes through a Set unchanged |
| Seqs.Merge | src/components/AssessmentManager.tsx:129 | the merged list has no repeats, and every element of it comes from the old list or the selection, and every element of both is in it |
| Seqs.MergeKeepsExisting | src/components/LearningPathManager.tsx:119 | a repeat-free old list is a prefix of the merge (existing entries keep their order), and the merge is at most as long as both lists together |
| Seqs.MergeIsUnion | src/components/LearningPathManager.tsx:119 | the merge satisfies the union specification `IsMergeOf` |
| Seqs.MergeOfPresent | src/components/LearningPathManager.tsx:119 | any union of a repeat-free list with names it already holds is that list |
| Seqs.MergeIdempotent | src/components/AssessmentManager.tsx:129 | merging the same selection twice is merging it once |
| Seqs.MergePresent | src/components/AssessmentManager.tsx:129 | merging names already present into a repeat-free list leaves it unchanged |
| Seqs.Filter | src/components/AssessmentManager.tsx:161 | `Array.filter`: every kept element is from the list and passes; every passing element is kept |
| Seqs.FilterSubseq | src/components/AssessmentManager.tsx:161 | filtering keeps the original order (the result is a subsequence) |
| Seqs.Count | src/components/UserManager.tsx:263-285 | `xs.filter(p).length` is at most the length, equals it exactly when every element passes, and is 0 exactly when none does (the Published, Admins, Students and Active cards) |
| Seqs.FilterPartition | src/components/UserManager.tsx:263-274 | with complementary predicates the two filtered counts, and sums over them, add up to the whole |
| Seqs.FilterFilter | src/components/UserManager.tsx:84-88 | filtering by one predicate and then another is filtering by their conjunction |
| Seqs.Sum | src/components/AssessmentManager.tsx:364 | `reduce` summation of non-negative terms is non-negative |
| Seqs.SumAppend | src/components/AssessmentManager.tsx:364 | `reduce` summation distributes over concatenation |
| Seqs.SumAdd | src/components/OrganizationManager.tsx:220 | summing `f + g` is summing `f` plus summing `g` |
| Seqs.ElemsCard | src/components/AssessmentManager.tsx:375 | a Set built from a list is no bigger than the list, and exactly as big when the list has no repeats |
| Decimal.NatToString | src/components/AssessmentManager.tsx:183-186 | `${n}` is a non-empty string of digits without a leading zero |
| Decimal.IntToString | src/components/AssessmentManager.tsx:183 | `${i}` starts with '-' exactly for negative `i`, otherwise is all digits |
| Decimal.ParseNatToString | src/components/AssessmentManager.tsx:183-186 | reading back `${n}` gives `n` |
| Decimal.ParseIntToString | src/components/AssessmentManager.tsx:183 | reading back `${i}` gives `i`, negatives included |
| Records.Create | src/components/AssessmentManager.tsx:108-113 | create appends exactly one record carrying the fresh id, the form and the creation-only fields, and keeps the old list as a prefix |
| Records.Edit | src/components/AssessmentManager.tsx:96-101 | edit keeps length, ids and creation-only fields; records with the id take the form, all others are unchanged |
| Records.Delete | src/components/AssessmentManager.tsx:161 | delete keeps exactly the records whose id differs |
| Records.DeleteKeepsOrder | src/components/LearningPathManager.tsx:149 | the surviving records keep their order |
| Records.DeleteSplit | src/components/OrganizationManager.tsx:108 | survivors plus removed records account for every record and for every sum over them |
| Records.DeleteCount | src/components/UserManager.tsx:136 | deleting cannot raise the number of records satisfying any predicate |
| Records.DeleteMissing | src/components/UserManager.tsx:136 | deleting an id no record carries changes nothing |
| Records.DeleteIdempotent | src/components/UserManager.tsx:136 | deleting an id twice is deleting it once |
| Records.DeleteUndoesCreate | src/components/OrganizationManager.tsx:78-85 | deleting a just-created record with a fresh id restores the list |
| Records.DeleteAfterEdit | src/components/OrganizationManager.tsx:66-72 | editing a record and then deleting it equals deleting it |
| Records.EditTwice | src/components/UserManager.tsx:93-99 | the last edit wins |
| Records.EditUnchanged | src/components/UserManager.tsx:122-131 | submitting the edit dialog with the values `handleEdit` copied in changes nothing |
| Catalog.Assign | src/components/AssessmentManager.tsx:124-131 | with no target or an empty selection the list is unchanged; otherwise only items with the target id change, only in their organization list, which becomes exactly `Merge(old, selection)`: old names first, then new ones in selection order, no repeats |
| Catalog.Submit | src/components/AssessmentManager.tsx:93-122 | edit: ids and organization lists kept, rows with the edited id take the form, others unchanged; create: one appended item with the fresh id and no organizations; the flattened organizations are unchanged and stay repeat-free (the same handler is src/components/LearningPathManager.tsx:83-112; `Assessments.HandleSubmit` and `LearningPaths.HandleSubmit` are this function under the managers' names) |
| Catalog.AssignTo | src/components/LearningPathManager.tsx:116-121 | the mapping step: length, ids and forms kept, non-targets unchanged, each target's list becomes exactly `Merge(old, selection)` |
| Catalog.AssignIdempotent | src/components/AssessmentManager.tsx:125-131 | assigning the same selection twice equals assigning it once |
| Catalog.AssignKeepsDistinct | src/components/LearningPathManager.tsx:119 | if no list repeats a name before an assignment, none does after |
| Catalog.AssignPresent | src/components/AssessmentManager.tsx:129 | on repeat-free lists, assigning organizations the target already has is a no-op |
| Catalog.AssignOrgSet | src/components/LearningPathManager.tsx:114-131 | after assigning to an existing id the card's set is the old set plus the selection; with an unknown id nothing changes |
| Catalog.InAllOrgs | src/components/LearningPathManager.tsx:327 | a name is in the flattened list exactly when some item lists it |
| Catalog.AllOrgs | src/components/AssessmentManager.tsx:375 | `flatMap` of the organization lists is as long as all the lists together |
| Catalog.AllOrgsEmpty | src/components/LearningPathManager.tsx:327 | the flattened list is empty exactly when every item's list is |
| Catalog.DistinctOrgs | src/components/AssessmentManager.tsx:375 | the distinct-organization count never exceeds the total length of the lists, and is 0 exactly when no item lists an organization |
| Catalog.DistinctOrgsIsUnion | src/components/LearningPathManager.tsx:327 | the card is the size of the union of all items' lists |
| Catalog.CreateKeepsOrgs | src/components/LearningPathManager.tsx:98-103 | creating an item (with an empty list) leaves the card's names alone |
| Catalog.EditKeepsOrgs | src/components/LearningPathManager.tsx:85-92 | editing never changes any item's organization list |
| Catalog.DeleteShrinksOrgs | src/components/AssessmentManager.tsx:161 | deleting can only remove names from the card's set, and never raises the card |
| Catalog.Toggle | src/components/AssessmentManager.tsx:503-508 | checking appends the name to the selection; unchecking removes every copy of the name and keeps all other names, in order |
| Catalog.ToggleKeepsDistinct | src/components/LearningPathManager.tsx:443-449 | since a box is checkable only when its name is not selected, the selection never repeats a name |
| Catalog.ToggleOffOn | src/components/LearningPathManager.tsx:443-449 | unchecking then re-checking a name leaves a repeat-free selection with the same names plus that one |
| Catalog.BadgeView | src/components/LearningPathManager.tsx:377-389 | shows `min(2, n)` leading names, a `+(n-2)` badge exactly when n > 2, "Not assigned" exactly when n = 0; shown plus overflow is n |
| Assessments.HandleAssign | src/components/AssessmentManager.tsx:124-141 | no-op without target or selection; otherwise only the target's `assignedOrgs` changes, to exactly `Merge(old, selection)` (the `Set`'s insertion order); for an id in the list the card's set grows by exactly the selection; repeat-freedom is kept |
| Assessments.HandleDelete | src/components/AssessmentManager.tsx:159-168 | unconfirmed: nothing changes; confirmed: exactly the other ids stay, in order; the card's set can only shrink and repeat-freedom is kept |
| Assessments.PublishedCount | src/components/AssessmentManager.tsx:353 | the Published card is at most the number of assessments, equals it exactly when all are published, and is 0 exactly when all are drafts |
| Assessments.TotalQuestions | src/components/AssessmentManager.tsx:364 | the Total Questions card is never negative while no question count is |
| Assessments.AssignedOrganizations | src/components/AssessmentManager.tsx:375 | the card is at most the total number of assignments, and 0 exactly when no assessment is assigned anywhere |
| Assessments.CreateCards | src/components/AssessmentManager.tsx:107-113 | a create adds 1 to Published exactly when created published, adds its questions to the total, and keeps the organization card |
| Assessments.DeleteCards | src/components/AssessmentManager.tsx:159-168 | a delete takes exactly the removed assessments' questions off the total and cannot raise the other cards |
| Assessments.FormatDuration | src/components/AssessmentManager.tsx:182-187 | under 60: `${m}m`; otherwise hours h and minutes m with h*60+m = minutes and m < 60, rendered `${h}h ${m}m`, or `${h}h` exactly when m = 0 |
| Assessments.ParseFormatDuration | src/components/AssessmentManager.tsx:182-187 | the rendering reads back to the minutes it came from |
| Assessments.ParseSpacedDuration | src/components/AssessmentManager.tsx:186 | in `${hours}h ${remainingMinutes}m` the first space separates the hours (before the 'h') from the minutes, so the parts read back to `hours * 60 + remainingMinutes` |
| Assessments.FormatDurationInjective | src/components/AssessmentManager.tsx:182-187 | different durations never render alike |
| LearningPaths.HandleAssign | src/components/LearningPathManager.tsx:114-131 | no-op without target or selection; otherwise only the target's `enrolledOrgs` changes, to exactly `Merge(old, selection)` (the `Set`'s insertion order); for an id in the list the card's set grows by exactly the selection; repeat-freedom is kept |
| LearningPaths.HandleDelete | src/components/LearningPathManager.tsx:147-156 | unconfirmed: nothing changes; confirmed: exactly the other ids stay, in order; repeat-freedom kept |
| LearningPaths.PublishedCount | src/components/LearningPathManager.tsx:305 | the Published card is at most the number of paths, equals it exactly when all are published, and is 0 exactly when all are drafts |
| LearningPaths.TotalModules | src/components/LearningPathManager.tsx:316 | the Total Modules card is never negative while no module count is |
| LearningPaths.EnrolledOrganizations | src/components/LearningPathManager.tsx:327 | the card is at most the total number of enrolments, and 0 exactly when no path is enrolled anywhere |
| LearningPaths.CreateCards | src/components/LearningPathManager.tsx:97-103 | a create adds 1 to Published exactly when created published, adds its modules to the total, and keeps the enrolment card |
| LearningPaths.EditCards | src/components/LearningPathManager.tsx:85-92 | an edit keeps the path count and the enrolment card, and moves the module total only through the edited paths |
| LearningPaths.DeleteCards | src/components/LearningPathManager.tsx:147-156 | a delete takes exactly the removed paths' modules off the total and cannot raise the other cards |
| Users.RoleName | src/components/UserManager.tsx:18 | "admin" names exactly the admin role and "student" exactly the student role |
| Users.Matches | src/components/UserManager.tsx:84-88 | both filters at "all" pass every user; with the role filter at "admin" or "student" a passing user has that role, and unless the organization filter is "all" a passing user belongs to that organization |
| Users.FilteredUsers | src/components/UserManager.tsx:84-88 | a user is shown exactly when the organization filter is "all" or equal to the user's organization, and the role filter is "all" or equal to the user's role |
| Users.FilteredKeepsOrder | src/components/UserManager.tsx:84-88 | the shown rows keep the user list's order |
| Users.FilterAllShowsEveryone | src/components/UserManager.tsx:72-73 | with both filters at their initial "all" every user is shown |
| Users.FilterComposes | src/components/UserManager.tsx:85-87 | the organization and role filters are independent and compose |
| Users.RoleFilterPartition | src/components/UserManager.tsx:311-320 | within an organization, the "admin" and "student" views together are as many rows as the "all" view |
| Users.AdminFilterMatchesCard | src/components/UserManager.tsx:263 | the "admin" view shows as many rows as the Admins card counts |
| Users.HandleSubmit | src/components/UserManager.tsx:90-120 | edit: ids, join dates and learning-path counts kept, matching rows take the form; create: one appended user, joined today with no learning paths |
| Users.HandleDelete | src/components/UserManager.tsx:134-143 | unconfirmed: nothing changes; confirmed: exactly the other ids stay, in order |
| Users.AdminCount | src/components/UserManager.tsx:263 | the Admins card is at most the user count, equals it exactly when every user is an admin, and is 0 exactly when every user is a student |
| Users.StudentCount | src/components/UserManager.tsx:274 | the Students card is at most the user count, equals it exactly when every user is a student, and is 0 exactly when every user is an admin |
| Users.ActiveCount | src/components/UserManager.tsx:285 | the Active Users card is at most the user count, equals it exactly when every user is active, and is 0 exactly when every user is inactive |
| Users.RolesPartitionUsers | src/components/UserManager.tsx:253-274 | Admins plus Students is the Total Users card |
| Users.CreateCounts | src/components/UserManager.tsx:105-111 | a create adds one user and one to the card of its role, and to Active when created active |
| Users.DeleteCounts | src/components/UserManager.tsx:134-143 | a delete removes exactly the users with the id and cannot raise any card |
| Organizations.HandleSubmit | src/components/OrganizationManager.tsx:63-94 | edit: ids and counts kept, matching rows take name, description and status; create: one appended organization with zero counts; Total Users unchanged either way |
| Organizations.HandleDelete | src/components/OrganizationManager.tsx:106-115 | unconfirmed: nothing changes; confirmed: exactly the other ids stay, in order, and Total Users drops by exactly the removed rows' totals |
| Organizations.ActiveCount | src/components/OrganizationManager.tsx:209 | the Active card is at most the number of organizations, equals it exactly when all are active, and is 0 exactly when all are inactive |
| Organizations.TotalUsers | src/components/OrganizationManager.tsx:220 | the Total Users card, computed as `reduce`'s running total (each row's admins and students added after the rows before it), equals the sum of the rows' totals, and is never negative while no count is |
| Organizations.TotalUsersIsRowSum | src/components/OrganizationManager.tsx:220-261 | the Total Users card is the sum of the rows' "total" cells, and so all admins plus all students |
| Organizations.CreateCards | src/components/OrganizationManager.tsx:78-85 | a create adds one organization, and one to Active exactly when created active |
| Organizations.DeleteCards | src/components/OrganizationManager.tsx:106-115 | a delete removes exactly the rows with the id and cannot raise the Active card |

The assessment table's organizations column
(src/components/AssessmentManager.tsx:436-448) follows the same rule as
`Catalog.BadgeView`, and its checkbox list
(src/components/AssessmentManager.tsx:500-510) the same as `Catalog.Toggle`.

## Left out

- JSX rendering, dialogs, open/close flags, tabs and toasts: UI with no effect on the lists.
- `handleEdit`, `handleAddNew` and `handleAssignToOrgs`: they only fill the dialog state (`formData`, the edited or assigning record, an empty selection). The model takes their results as the `editing`/`target` and `form` parameters of the handlers.
- `window.confirm`, `Date.now()` and `new Date()` are parameters: the user's answer, a caller-supplied fresh id, and today's date as a string. Ids are not claimed unique, because nothing in the code makes them so.
- The `parseInt(e.target.value) || default` coercion of numeric form inputs: it depends on JavaScript string parsing. Numeric form fields are plain integers in the model.
- `Assessments.FormatDuration`: JavaScript numbers are floating point. The model takes whole minutes (what `parseInt` produces) and does not model fractional or `NaN` durations. It is faithful only for safe integers (|n| < 2^53): above that `Math.floor(m / 60)` and `m % 60` round, from 10^21 `${n}` switches to exponent notation, and a digit string too long for a double makes `parseInt` return `Infinity`, rendered "Infinityh".
- `Decimal.NatToString`: the same bound; from 10^21 JavaScript renders `${n}` in exponent notation ("1e+21"), which the model does not.
- `Assessments.TotalQuestions`, `LearningPaths.TotalModules`, `Organizations.TotalUsers`: `reduce` over doubles loses precision once a running total passes 2^53; the model sums unbounded integers.
- Dashboard.tsx and Index.tsx: tab navigation, hard-coded statistics and a login flag, with no list logic.
- Remote persistence, concurrency and refetching: none exists in the code; all state is local fixture arrays.
- The fixture data each manager starts with: the lemmas hold for every list.

=== FILE: assessments.dfy ===
/** The assessment manager: create/edit/delete of assessments, assignment of
    an assessment to organizations by name, the four summary cards and the
    duration column. */
module Assessments {
  import opened Options
  import opened Seqs
  import opened Decimal
  import opened Records
  import opened Catalog

  /** The assessment's `type`. */
  datatype Kind = Quiz | Assignment | Project

  /** The create/edit dialog's `formData`: every field but `id` and
      `assignedOrgs`. */
  datatype AssessmentForm = AssessmentForm(
    title: string,
    description: string,
    kind: Kind,
    duration: int,
    questions: int,
    difficulty: Difficulty,
    category: string,
    status: Publication,
    passingScore: int)

  /** An assessment; the organization list is its `assignedOrgs`. */
  type Assessment = Item<AssessmentForm>

  /* ---------------------------------------------------------------------
     Handlers
     --------------------------------------------------------------------- */

  /** `handleSubmit`, as `Catalog.Submit` describes it. */
  function HandleSubmit(xs: seq<Assessment>, editing: Option<Id>, form: AssessmentForm, freshId: Id): seq<Assessment> {
    Submit(xs, editing, form, freshId)
  }

  /** `handleAssign`: only with an assessment chosen and a non-empty
      selection; the chosen assessment's `assignedOrgs` becomes the union of
      its old names and the selection, without repeats and with the old
      names in front. Nothing else changes. */
  function HandleAssign(xs: seq<Assessment>, target: Option<Id>, selected: seq<OrgName>): (r: seq<Assessment>)
    ensures |r| == |xs|
    ensures target.None? || |selected| == 0 ==> r == xs
    ensures forall i | 0 <= i < |xs| :: r[i].id == xs[i].id && r[i].form == xs[i].form
    ensures forall i | 0 <= i < |xs| && target != Some(xs[i].id) :: r[i] == xs[i]
    ensures forall i | 0 <= i < |xs| && target == Some(xs[i].id) && |selected| > 0 ::
      IsMergeOf(r[i].rest, xs[i].rest, selected)
    ensures forall i | 0 <= i < |xs| && target == Some(xs[i].id) && |selected| > 0 ::
      r[i].rest == Merge(xs[i].rest, selected)
    ensures target.Some? && HasId(xs, target.value) && |selected| > 0 ==>
      Elems(AllOrgs(r)) == Elems(AllOrgs(xs)) + Elems(selected)
    ensures AssignmentsDistinct(xs) ==> AssignmentsDistinct(r)
  {
    AssignKeepsDistinct(xs, target, selected);
    if target.Some? && |selected| > 0 then
      AssignOrgSet(xs, target.value, selected);
      Assign(xs, target, selected)
    else
      Assign(xs, target, selected)
  }

  /** `handleDelete`: once confirmed, every assessment with the id goes and
      all others stay; unconfirmed, nothing happens. */
  function HandleDelete(xs: seq<Assessment>, id: Id, confirmed: bool): (r: seq<Assessment>)
    ensures !confirmed ==> r == xs
    ensures confirmed ==> forall i | 0 <= i < |r| :: r[i].id != id && r[i] in xs
    ensures confirmed ==> forall i | 0 <= i < |xs| && xs[i].id != id :: xs[i] in r
    ensures Subseq(r, xs)
    ensures Elems(AllOrgs(r)) <= Elems(AllOrgs(xs))
    ensures AssignmentsDistinct(xs) ==> AssignmentsDistinct(r)
  {
    if confirmed then
      DeleteKeepsOrder(xs, id);
      DeleteShrinksOrgs(xs, id);
      Delete(xs, id)
    else
      SubseqRefl(xs);
      xs
  }

  /* ---------------------------------------------------------------------
     Summary cards
     --------------------------------------------------------------------- */

  predicate IsPublished(a: Assessment) {
    a.form.status == Published
  }

  function Questions(a: Assessment): int {
    a.form.questions
  }

  /** The "Published" card: `assessments.filter(a => a.status === "published").length`.
      It never exceeds the number of assessments, reaches it exactly when
      every assessment is published, and is 0 exactly when none is. */
  function PublishedCount(xs: seq<Assessment>): (n: nat)
    ensures n <= |xs|
    ensures n == |xs| <==> forall i | 0 <= i < |xs| :: xs[i].form.status == Published
    ensures n == 0 <==> forall i | 0 <= i < |xs| :: xs[i].form.status == Draft
  {
    Count(xs, IsPublished)
  }

  /** The "Total Questions" card: `assessments.reduce((sum, a) => sum + a.questions, 0)`;
      never negative while no question count is. */
  function TotalQuestions(xs: seq<Assessment>): (t: int)
    ensures (forall i | 0 <= i < |xs| :: xs[i].form.questions >= 0) ==> t >= 0
  {
    Sum(xs, Questions)
  }

  /** The "Assigned Organizations" card:
      `new Set(assessments.flatMap(a => a.assignedOrgs)).size`. */
  function AssignedOrganizations(xs: seq<Assessment>): (n: nat)
    ensures n <= Sum(xs, OrgCount)
    ensures n == 0 <==> forall i | 0 <= i < |xs| :: |xs[i].rest| == 0
  {
    DistinctOrgs(xs)
  }

  /** Creating adds the new assessment to the published count when it is
      created as published, and adds its questions to the total. */
  lemma CreateCards(xs: seq<Assessment>, freshId: Id, form: AssessmentForm)
    ensures var r := HandleSubmit(xs, None, form, freshId);
      && PublishedCount(r) == PublishedCount(xs) + (if form.status == Published then 1 else 0)
      && TotalQuestions(r) == TotalQuestions(xs) + form.questions
      && AssignedOrganizations(r) == AssignedOrganizations(xs)
  {
    var a := Record(freshId, form, []);
    FilterAppend(xs, [a], IsPublished);
    SumAppend(xs, [a], Questions);
  }

  /** Deleting takes exactly the removed assessments' questions off the
      total, and can only lower the other cards. */
  lemma DeleteCards(xs: seq<Assessment>, id: Id)
    ensures var r := HandleDelete(xs, id, true);
      && PublishedCount(r) <= PublishedCount(xs)
      && TotalQuestions(r) == TotalQuestions(xs) - TotalQuestions(WithId(xs, id))
      && AssignedOrganizations(r) <= AssignedOrganizations(xs)
  {
    DeleteSplit(xs, id, Questions);
    DeleteCount(xs, id, IsPublished);
    DeleteShrinksOrgs(xs, id);
  }

  /* ---------------------------------------------------------------------
     The duration column
     --------------------------------------------------------------------- */

  /** `formatDuration`: under an hour, `${minutes}m`; otherwise whole hours
      `h` and the remaining minutes `m` (`h * 60 + m == minutes`,
      `0 <= m < 60`) as `${h}h ${m}m`, or `${h}h` when `m` is 0. */
  function FormatDuration(minutes: int): (s: string)
    ensures minutes < 60 ==> s == IntToString(minutes) + "m"
    ensures minutes >= 60 ==> exists h: nat, m: nat ::
      && h * 60 + m == minutes && m < 60
      && s == NatToString(h) + "h" + (if m == 0 then "" else " " + NatToString(m) + "m")
    ensures |s| >= 2 && (s[|s| - 1] == 'h' <==> minutes >= 60 && minutes % 60 == 0)
  {
    if minutes < 60 then IntToString(minutes) + "m"
    else
      var hours := minutes / 60;
      var remaining := minutes % 60;
      if remaining > 0 then NatToString(hours) + "h " + NatToString(remaining) + "m"
      else NatToString(hours) + "h"
  }

  /** Reads a rendered duration back: "Hh", "Hh Mm" or "Nm". */
  function ParseDuration(s: string): Option<int> {
    if |s| == 0 then None
    else if s[|s| - 1] == 'h' then
      match ParseNat(s[..|s| - 1])
      case None => None
      case Some(h) => Some(h * 60)
    else if s[|s| - 1] == 'm' then
      var body := s[..|s| - 1];
      if ' ' !in body then ParseInt(body)
      else
        var k := FirstIndex(body, ' ');
        if k == 0 || body[k - 1] != 'h' then None
        else
          match (ParseNat(body[..k - 1]), ParseNat(body[k + 1..]))
          case (Some(h), Some(m)) => Some(h * 60 + m)
          case _ => None
    else None
  }

  /** The rendering loses nothing: reading it back gives the minutes, so two
      different durations never render alike. */
  lemma ParseFormatDuration(minutes: int)
    ensures ParseDuration(FormatDuration(minutes)) == Some(minutes)
  {
    if minutes < 60 {
      ParseShortDuration(minutes);
    } else if minutes % 60 == 0 {
      ParseWholeHours(minutes / 60);
    } else {
      ParseHoursMinutes(minutes / 60, minutes % 60);
    }
  }

  lemma ParseShortDuration(minutes: int)
    requires minutes < 60
    ensures ParseDuration(IntToString(minutes) + "m") == Some(minutes)
  {
    var body := IntToString(minutes);
    var s := body + "m";
    assert s[..|s| - 1] == body;
    assert ' ' !in body;
    ParseIntToString(minutes);
  }

  lemma {:induction false} ParseWholeHours(h: nat)
    ensures ParseDuration(NatToString(h) + "h") == Some(h * 60)
  {
    var hs := NatToString(h);
    var s := hs + "h";
    assert s[..|s| - 1] == hs;
    ParseNatToString(h);
  }

  lemma ParseHoursMinutes(h: nat, m: nat)
    requires 0 < m < 60
    ensures ParseDuration(NatToString(h) + "h " + NatToString(m) + "m") == Some(h * 60 + m)
  {
    var hs := NatToString(h);
    var ms := NatToString(m);
    var body := hs + "h " + ms;
    assert body + "m" == hs + "h " + ms + "m";
    var k := FirstSpace(hs, ms);
    ParseNatToString(h);
    ParseNatToString(m);
    ParseSpacedDuration(body, k, h, m);
  }

  /** "Hh Mm" read through its first space: hours before the 'h', minutes
      after the space. */
  lemma ParseSpacedDuration(body: string, k: nat, h: nat, m: nat)
    requires 0 < k < |body| && body[k] == ' ' && body[k - 1] == 'h'
    requires forall j | 0 <= j < k :: body[j] != ' '
    requires ParseNat(body[..k - 1]) == Some(h) && ParseNat(body[k + 1..]) == Some(m)
    ensures ParseDuration(body + "m") == Some(h * 60 + m)
  {
    var s := body + "m";
    assert s[..|s| - 1] == body && s[|s| - 1] == 'm';
    assert ' ' in body;
    assert FirstIndex(body, ' ') == k;
  }

  /** In "Hh Mm" the first space follows the 'h', with the hours before the
      'h' and the minutes after the space. */
  lemma FirstSpace(hs: string, ms: string) returns (k: nat)
    requires forall j | 0 <= j < |hs| :: IsDigit(hs[j])
    ensures ' ' in hs + "h " + ms
    ensures k == FirstIndex(hs + "h " + ms, ' ') == |hs| + 1
    ensures (hs + "h " + ms)[k - 1] == 'h'
    ensures (hs + "h " + ms)[..k - 1] == hs
    ensures (hs + "h " + ms)[k + 1..] == ms
  {
    var body := hs + "h " + ms;
    assert body[|hs| + 1] == ' ';
    k := FirstIndex(body, ' ');
    assert forall j | 0 <= j <= |hs| :: body[j] != ' ' by {
      forall j | 0 <= j <= |hs| ensures body[j] != ' ' {
        if j < |hs| {
          assert body[j] == hs[j];
        }
      }
    }
    assert body[..|hs|] == hs;
    assert body[|hs| + 2..] == ms;
  }

  /** Distinct durations render differently. */
  lemma FormatDurationInjective(a: int, b: int)
    requires FormatDuration(a) == FormatDuration(b)
    ensures a == b
  {
    ParseFormatDuration(a);
    ParseFormatDuration(b);
  }

}

=== FILE: catalog.dfy ===
/** What the assessment and learning-path managers share: each item carries
    the names of the organizations it is assigned to (`assignedOrgs` on an
    assessment, `enrolledOrgs` on a learning path), and both managers
    - assign an item to a selection of organizations by set union,
    - build that selection with one checkbox per organization,
    - show the "Assigned/Enrolled Organizations" card as the number of
      distinct names over all items,
    - render each row's list as at most two badges and a "+N" badge. */
module Catalog {
  import opened Options
  import opened Seqs
  import opened Records

  /** Organizations are referred to by name, not by id. */
  type OrgName = string

  datatype Difficulty = Beginner | Intermediate | Advanced

  datatype Publication = Draft | Published

  /** An assessment or learning path: the creation-only part of the record
      is its list of organization names. */
  type Item<F> = Record<F, seq<OrgName>>

  /** No item lists an organization twice. Creation starts every list empty
      and assignment merges without repeats, so the handlers keep this. */
  predicate AssignmentsDistinct<F>(xs: seq<Item<F>>) {
    forall i | 0 <= i < |xs| :: NoDups(xs[i].rest)
  }

  /* ---------------------------------------------------------------------
     Assignment
     --------------------------------------------------------------------- */

  /** `handleAssign`: with an item chosen (`target`, the id of the item the
      assign dialog was opened for) and at least one organization selected,
      every item with that id gets `[...new Set([...orgs, ...selected])]`;
      otherwise the list is left alone. */
  function Assign<F>(xs: seq<Item<F>>, target: Option<Id>, selected: seq<OrgName>): (r: seq<Item<F>>)
    ensures |r| == |xs|
    ensures target.None? || |selected| == 0 ==> r == xs
    ensures forall i | 0 <= i < |xs| :: r[i].id == xs[i].id && r[i].form == xs[i].form
    ensures forall i | 0 <= i < |xs| && (target != Some(xs[i].id) || |selected| == 0) :: r[i] == xs[i]
    ensures forall i | 0 <= i < |xs| && target == Some(xs[i].id) && |selected| > 0 ::
      IsMergeOf(r[i].rest, xs[i].rest, selected)
    ensures forall i | 0 <= i < |xs| && target == Some(xs[i].id) && |selected| > 0 ::
      r[i].rest == Merge(xs[i].rest, selected)
  {
    if target.None? || |selected| == 0 then xs else AssignTo(xs, target.value, selected)
  }

  /** The mapping step of `handleAssign` for a chosen id and selection. */
  function AssignTo<F>(xs: seq<Item<F>>, id: Id, selected: seq<OrgName>): (r: seq<Item<F>>)
    ensures |r| == |xs|
    ensures forall i | 0 <= i < |xs| :: r[i].id == xs[i].id && r[i].form == xs[i].form
    ensures forall i | 0 <= i < |xs| && xs[i].id != id :: r[i] == xs[i]
    ensures forall i | 0 <= i < |xs| && xs[i].id == id :: IsMergeOf(r[i].rest, xs[i].rest, selected)
    ensures forall i | 0 <= i < |xs| && xs[i].id == id :: r[i].rest == Merge(xs[i].rest, selected)
  {
    if |xs| == 0 then []
    else
      var x := xs[0];
      MergeIsUnion(x.rest, selected);
      [if x.id == id then x.(rest := Merge(x.rest, selected)) else x] + AssignTo(xs[1..], id, selected)
  }

  /** Assigning the same selection twice is assigning it once. */
  lemma AssignIdempotent<F>(xs: seq<Item<F>>, target: Option<Id>, selected: seq<OrgName>)
    ensures Assign(Assign(xs, target, selected), target, selected) == Assign(xs, target, selected)
  {
    if target.Some? && |selected| > 0 {
      AssignToIdempotent(xs, target.value, selected);
    }
  }

  lemma {:induction false} AssignToIdempotent<F>(xs: seq<Item<F>>, id: Id, selected: seq<OrgName>)
    ensures AssignTo(AssignTo(xs, id, selected), id, selected) == AssignTo(xs, id, selected)
  {
    if |xs| > 0 {
      AssignToIdempotent(xs[1..], id, selected);
      MergeIdempotent(xs[0].rest, selected);
      assert AssignTo(xs, id, selected)[1..] == AssignTo(xs[1..], id, selected);
    }
  }

  /** Assignment keeps every item's list free of repeats. */
  lemma AssignKeepsDistinct<F>(xs: seq<Item<F>>, target: Option<Id>, selected: seq<OrgName>)
    ensures AssignmentsDistinct(xs) ==> AssignmentsDistinct(Assign(xs, target, selected))
  {
  }

  /** Re-assigning organizations an item already has is a no-op. */
  lemma AssignPresent<F>(xs: seq<Item<F>>, target: Option<Id>, selected: seq<OrgName>)
    requires AssignmentsDistinct(xs)
    requires forall i | 0 <= i < |xs| && target == Some(xs[i].id) ::
      forall k | 0 <= k < |selected| :: selected[k] in xs[i].rest
    ensures Assign(xs, target, selected) == xs
  {
    var r := Assign(xs, target, selected);
    forall i | 0 <= i < |xs| ensures r[i] == xs[i] {
      if target == Some(xs[i].id) && |selected| > 0 {
        MergeOfPresent(r[i].rest, xs[i].rest, selected);
      }
    }
  }

  /* ---------------------------------------------------------------------
     The distinct-organization card
     --------------------------------------------------------------------- */

  /** `xs.flatMap(x => x.orgs)`. */
  function AllOrgs<F>(xs: seq<Item<F>>): (r: seq<OrgName>)
    ensures |r| == Sum(xs, OrgCount)
  {
    if |xs| == 0 then [] else xs[0].rest + AllOrgs(xs[1..])
  }

  /** The number of names an item lists. */
  function OrgCount<F>(x: Item<F>): int {
    |x.rest|
  }

  /** `new Set(xs.flatMap(x => x.orgs)).size`: every organization counted
      once however many items list it, so never more than the total length
      of the lists, and 0 exactly when no item lists any. */
  function DistinctOrgs<F>(xs: seq<Item<F>>): (n: nat)
    ensures n <= Sum(xs, OrgCount)
    ensures n == 0 <==> forall i | 0 <= i < |xs| :: |xs[i].rest| == 0
  {
    var all := AllOrgs(xs);
    ElemsCard(all);
    AllOrgsEmpty(xs);
    assert |all| > 0 ==> all[0] in Elems(all);
    |Elems(all)|
  }

  /** The flattened list is empty exactly when every item's list is. */
  lemma {:induction false} AllOrgsEmpty<F>(xs: seq<Item<F>>)
    ensures |AllOrgs(xs)| == 0 <==> forall i | 0 <= i < |xs| :: |xs[i].rest| == 0
  {
    if |xs| > 0 {
      AllOrgsEmpty(xs[1..]);
      assert forall i | 1 <= i < |xs| :: xs[i] == xs[1..][i - 1];
    }
  }

  /** A name is in the flattened list exactly when some item lists it. */
  lemma {:induction false} InAllOrgs<F>(xs: seq<Item<F>>, o: OrgName)
    ensures o in AllOrgs(xs) <==> exists i | 0 <= i < |xs| :: o in xs[i].rest
  {
    if |xs| > 0 {
      InAllOrgs(xs[1..], o);
      if o in AllOrgs(xs[1..]) {
        var i :| 0 <= i < |xs[1..]| && o in xs[1..][i].rest;
        assert xs[i + 1] == xs[1..][i];
      }
      if exists i | 0 <= i < |xs| :: o in xs[i].rest {
        var i :| 0 <= i < |xs| && o in xs[i].rest;
        if i > 0 {
          assert xs[1..][i - 1] == xs[i];
        }
      }
    }
  }

  /** The card is the size of the union of all the items' lists: a name
      counts once however many items list it. */
  lemma DistinctOrgsIsUnion<F>(xs: seq<Item<F>>)
    ensures DistinctOrgs(xs) == |set i, o | 0 <= i < |xs| && o in xs[i].rest :: o|
  {
    var u := set i, o | 0 <= i < |xs| && o in xs[i].rest :: o;
    forall o ensures o in Elems(AllOrgs(xs)) <==> o in u {
      InAllOrgs(xs, o);
    }
    assert Elems(AllOrgs(xs)) == u;
  }

  /** Lists that agree item by item flatten to the same names. */
  lemma {:induction false} AllOrgsPointwise<F>(a: seq<Item<F>>, b: seq<Item<F>>)
    requires |a| == |b|
    requires forall i | 0 <= i < |a| :: a[i].rest == b[i].rest
    ensures AllOrgs(a) == AllOrgs(b)
  {
    if |a| > 0 {
      AllOrgsPointwise(a[1..], b[1..]);
    }
  }

  /** Flattening distributes over concatenation. */
  lemma {:induction false} AllOrgsAppend<F>(a: seq<Item<F>>, b: seq<Item<F>>)
    ensures AllOrgs(a + b) == AllOrgs(a) + AllOrgs(b)
  {
    if |a| == 0 {
      assert a + b == b;
    } else {
      AllOrgsAppend(a[1..], b);
      assert (a + b)[1..] == a[1..] + b;
    }
  }

  /** After a successful assignment the card's set is the old set plus the
      selection; if no item carries the target id nothing changes. */
  lemma AssignOrgSet<F>(xs: seq<Item<F>>, id: Id, selected: seq<OrgName>)
    requires |selected| > 0
    ensures HasId(xs, id) ==>
      Elems(AllOrgs(Assign(xs, Some(id), selected))) == Elems(AllOrgs(xs)) + Elems(selected)
    ensures !HasId(xs, id) ==> Assign(xs, Some(id), selected) == xs
  {
    var r := Assign(xs, Some(id), selected);
    if HasId(xs, id) {
      var j :| 0 <= j < |xs| && xs[j].id == id;
      forall o | o in Elems(AllOrgs(r))
        ensures o in Elems(AllOrgs(xs)) + Elems(selected)
      {
        InAllOrgs(r, o);
        var i :| 0 <= i < |r| && o in r[i].rest;
        if xs[i].id == id {
          assert IsMergeOf(r[i].rest, xs[i].rest, selected);
          var k :| 0 <= k < |r[i].rest| && r[i].rest[k] == o;
          if o in xs[i].rest {
            InAllOrgs(xs, o);
          }
        } else {
          InAllOrgs(xs, o);
        }
      }
      forall o | o in Elems(AllOrgs(xs)) + Elems(selected)
        ensures o in Elems(AllOrgs(r))
      {
        InAllOrgs(r, o);
        if o in AllOrgs(xs) {
          InAllOrgs(xs, o);
          var i :| 0 <= i < |xs| && o in xs[i].rest;
          var k :| 0 <= k < |xs[i].rest| && xs[i].rest[k] == o;
          if xs[i].id == id {
            assert IsMergeOf(r[i].rest, xs[i].rest, selected);
          }
          assert o in r[i].rest;
        } else {
          var k :| 0 <= k < |selected| && selected[k] == o;
          assert IsMergeOf(r[j].rest, xs[j].rest, selected);
          assert o in r[j].rest;
        }
      }
    } else {
      var r := Assign(xs, Some(id), selected);
      forall i | 0 <= i < |xs| ensures r[i] == xs[i] {
      }
    }
  }

  /** `handleSubmit` of both item managers: with an item being edited, every
      item with its id takes the form's fields and keeps its id and its
      organizations; otherwise a new item with id `freshId` and no
      organizations is appended. Either way the names behind the
      organization card stay the same, and no list gains a repeat. */
  function Submit<F>(xs: seq<Item<F>>, editing: Option<Id>, form: F, freshId: Id): (r: seq<Item<F>>)
    ensures editing.Some? ==> |r| == |xs|
    ensures editing.Some? ==> forall i | 0 <= i < |xs| ::
      && r[i].id == xs[i].id
      && r[i].rest == xs[i].rest
      && r[i].form == (if xs[i].id == editing.value then form else xs[i].form)
    ensures editing.None? ==> |r| == |xs| + 1 && r[..|xs|] == xs
    ensures editing.None? ==> r[|xs|].id == freshId && r[|xs|].form == form && r[|xs|].rest == []
    ensures AllOrgs(r) == AllOrgs(xs)
    ensures AssignmentsDistinct(xs) ==> AssignmentsDistinct(r)
  {
    if editing.Some? then
      EditKeepsOrgs(xs, editing.value, form);
      Edit(xs, editing.value, form)
    else
      CreateKeepsOrgs(xs, freshId, form);
      Create(xs, freshId, form, [])
  }

  /** Creating an item (with an empty list) leaves the card's names alone. */
  lemma CreateKeepsOrgs<F>(xs: seq<Item<F>>, id: Id, form: F)
    ensures AllOrgs(Create(xs, id, form, [])) == AllOrgs(xs)
  {
    AllOrgsAppend(xs, [Record(id, form, [])]);
  }

  /** Editing an item never touches its list, so the card's names stay. */
  lemma {:induction false} EditKeepsOrgs<F>(xs: seq<Item<F>>, id: Id, form: F)
    ensures AllOrgs(Edit(xs, id, form)) == AllOrgs(xs)
  {
    AllOrgsPointwise(Edit(xs, id, form), xs);
  }

  /** Deleting an item can only drop names from the card's set. */
  lemma DeleteShrinksOrgs<F>(xs: seq<Item<F>>, id: Id)
    ensures Elems(AllOrgs(Delete(xs, id))) <= Elems(AllOrgs(xs))
    ensures DistinctOrgs(Delete(xs, id)) <= DistinctOrgs(xs)
  {
    var r := Delete(xs, id);
    forall o | o in Elems(AllOrgs(r)) ensures o in Elems(AllOrgs(xs)) {
      InAllOrgs(r, o);
      var i :| 0 <= i < |r| && o in r[i].rest;
      var j :| 0 <= j < |xs| && xs[j] == r[i];
      InAllOrgs(xs, o);
    }
    SubsetCard(Elems(AllOrgs(r)), Elems(AllOrgs(xs)));
  }

  /* ---------------------------------------------------------------------
     The selection checkboxes
     --------------------------------------------------------------------- */

  /** A checkbox's `onCheckedChange`: checking appends the organization to
      the selection, unchecking filters it out. Unchecking keeps every other
      name, in order, and drops exactly the copies of the unchecked one. */
  function Toggle(selected: seq<OrgName>, org: OrgName, checked: bool): (r: seq<OrgName>)
    ensures checked ==> |r| == |selected| + 1 && selected <= r && r[|selected|] == org
    ensures !checked ==> org !in r
    ensures !checked ==> forall k | 0 <= k < |r| :: r[k] in selected
    ensures !checked ==> forall k | 0 <= k < |selected| && selected[k] != org :: selected[k] in r
    ensures !checked ==> Subseq(r, selected)
    ensures !checked ==> |r| + |Filter(selected, (o: OrgName) => o == org)| == |selected|
  {
    if checked then selected + [org]
    else
      var others := (o: OrgName) => o != org;
      FilterSubseq(selected, others);
      FilterPartition(selected, others, (o: OrgName) => o == org, (o: OrgName) => 0);
      Filter(selected, others)
  }

  /** The box is shown checked exactly when the name is already selected, so
      checking only happens for a name not yet there; under that condition
      the selection never holds a name twice. */
  lemma ToggleKeepsDistinct(selected: seq<OrgName>, org: OrgName, checked: bool)
    requires NoDups(selected)
    requires checked ==> org !in selected
    ensures NoDups(Toggle(selected, org, checked))
  {
    if !checked {
      FilterDistinct(selected, (o: OrgName) => o != org);
    }
  }

  /** Unchecking and re-checking a name restores it to the selection, once. */
  lemma ToggleOffOn(selected: seq<OrgName>, org: OrgName)
    requires NoDups(selected)
    ensures NoDups(Toggle(Toggle(selected, org, false), org, true))
    ensures Elems(Toggle(Toggle(selected, org, false), org, true)) == Elems(selected) + {org}
  {
    var off := Toggle(selected, org, false);
    ToggleKeepsDistinct(selected, org, false);
    ToggleKeepsDistinct(off, org, true);
    var on := Toggle(off, org, true);
    forall o | o in Elems(selected) + {org} ensures o in Elems(on) {
      if o != org {
        var k :| 0 <= k < |selected| && selected[k] == o;
        assert o in off;
        var m :| 0 <= m < |off| && off[m] == o;
        assert on[m] == o;
      } else {
        assert on[|off|] == org;
      }
    }
  }

  /* ---------------------------------------------------------------------
     The organizations column
     --------------------------------------------------------------------- */

  /** What a row's organizations cell shows: the first names as badges, a
      "+N" badge when some are hidden, and "Not assigned" when there are none. */
  datatype Badges = Badges(shown: seq<OrgName>, overflow: Option<nat>, notAssigned: bool)

  /** `orgs.slice(0, 2)` as badges, `+{orgs.length - 2}` when the length
      exceeds 2, and "Not assigned" when it is 0. */
  function BadgeView(orgs: seq<OrgName>): (b: Badges)
    ensures b.shown <= orgs
    ensures |b.shown| == if |orgs| < 2 then |orgs| else 2
    ensures b.overflow.Some? <==> |orgs| > 2
    ensures |b.shown| + (if b.overflow.Some? then b.overflow.value else 0) == |orgs|
    ensures b.notAssigned <==> |b.shown| == 0
  {
    var n := |orgs|;
    Badges(orgs[..if n < 2 then n else 2], if n > 2 then Some(n - 2) else None, n == 0)
  }

}

=== FILE: decimal.dfy ===
/** Decimal rendering of integers as a JavaScript template literal does it
    (`${n}`: no leading zeros, a leading '-' for negatives), and the matching
    parsers, which serve as the inverse the rendering is checked against. */
module Decimal {
  import opened Options

  predicate IsDigit(c: char) {
    '0' <= c <= '9'
  }

  function DigitChar(d: nat): (c: char)
    requires d < 10
    ensures IsDigit(c)
  {
    (48 + d) as char
  }

  function DigitValue(c: char): (d: nat)
    requires IsDigit(c)
    ensures d < 10
  {
    c as int - 48
  }

  /** `${n}` for a non-negative integer `n`. */
  function NatToString(n: nat): (s: string)
    ensures |s| >= 1
    ensures forall i | 0 <= i < |s| :: IsDigit(s[i])
    ensures s[0] == '0' ==> n == 0
  {
    if n < 10 then [DigitChar(n)] else NatToString(n / 10) + [DigitChar(n % 10)]
  }

  /** `${i}` for any integer `i`. */
  function IntToString(i: int): (s: string)
    ensures |s| >= 1
    ensures forall k | 0 <= k < |s| :: IsDigit(s[k]) || s[k] == '-'
    ensures s[0] == '-' <==> i < 0
    ensures forall k | 1 <= k < |s| :: IsDigit(s[k])
  {
    if i < 0 then "-" + NatToString(-i) else NatToString(i)
  }

  /** Reads a non-empty string of decimal digits; anything else is rejected. */
  function ParseNat(s: string): (r: Option<nat>)
    ensures r.Some? ==> |s| >= 1 && forall i | 0 <= i < |s| :: IsDigit(s[i])
  {
    if |s| == 0 || !IsDigit(s[|s| - 1]) then None
    else if |s| == 1 then Some(DigitValue(s[0]))
    else
      match ParseNat(s[..|s| - 1])
      case None => None
      case Some(v) => Some(v * 10 + DigitValue(s[|s| - 1]))
  }

  /** Reads an optionally negative decimal integer. */
  function ParseInt(s: string): Option<int> {
    if |s| >= 1 && s[0] == '-' then
      match ParseNat(s[1..])
      case None => None
      case Some(v) => Some(-(v as int))
    else
      match ParseNat(s)
      case None => None
      case Some(v) => Some(v as int)
  }

  /** Reading back what `NatToString` rendered gives the number again. */
  lemma {:induction false} ParseNatToString(n: nat)
    ensures ParseNat(NatToString(n)) == Some(n)
  {
    if n >= 10 {
      ParseNatToString(n / 10);
      var s := NatToString(n);
      assert s[..|s| - 1] == NatToString(n / 10);
    }
  }

  /** Reading back what `IntToString` rendered gives the integer again. */
  lemma ParseIntToString(i: int)
    ensures ParseInt(IntToString(i)) == Some(i)
  {
    var s := IntToString(i);
    if i < 0 {
      var digits := NatToString(-i);
      assert s == "-" + digits;
      assert s[1..] == digits;
      ParseNatToString(-i);
    } else {
      assert s == NatToString(i);
      ParseNatToString(i);
    }
  }

}

=== FILE: learning_paths.dfy ===
/** The learning-path manager: create/edit/delete of learning paths,
    enrolment of a path in organizations by name and the four summary
    cards. */
module LearningPaths {
  import opened Options
  import opened Seqs
  import opened Records
  import opened Catalog

  /** The create/edit dialog's `formData`: every field but `id` and
      `enrolledOrgs`. The duration is free text ("8 weeks"). */
  datatype PathForm = PathForm(
    title: string,
    description: string,
    difficulty: Difficulty,
    duration: string,
    modules: int,
    category: string,
    status: Publication)

  /** A learning path; the organization list is its `enrolledOrgs`. */
  type LearningPath = Item<PathForm>

  /* ---------------------------------------------------------------------
     Handlers
     --------------------------------------------------------------------- */

  /** `handleSubmit`, as `Catalog.Submit` describes it. */
  function HandleSubmit(xs: seq<LearningPath>, editing: Option<Id>, form: PathForm, freshId: Id): seq<LearningPath> {
    Submit(xs, editing, form, freshId)
  }

  /** `handleAssign`: only with a path chosen and a non-empty selection; the
      chosen path's `enrolledOrgs` becomes the union of its old names and the
      selection, without repeats and with the old names in front. Nothing
      else changes, and the card's set grows by exactly the selection. */
  function HandleAssign(xs: seq<LearningPath>, target: Option<Id>, selected: seq<OrgName>): (r: seq<LearningPath>)
    ensures |r| == |xs|
    ensures target.None? || |selected| == 0 ==> r == xs
    ensures forall i | 0 <= i < |xs| :: r[i].id == xs[i].id && r[i].form == xs[i].form
    ensures forall i | 0 <= i < |xs| && target != Some(xs[i].id) :: r[i] == xs[i]
    ensures forall i | 0 <= i < |xs| && target == Some(xs[i].id) && |selected| > 0 ::
      IsMergeOf(r[i].rest, xs[i].rest, selected)
    ensures forall i | 0 <= i < |xs| && target == Some(xs[i].id) && |selected| > 0 ::
      r[i].rest == Merge(xs[i].rest, selected)
    ensures target.Some? && HasId(xs, target.value) && |selected| > 0 ==>
      Elems(AllOrgs(r)) == Elems(AllOrgs(xs)) + Elems(selected)
    ensures AssignmentsDistinct(xs) ==> AssignmentsDistinct(r)
  {
    AssignKeepsDistinct(xs, target, selected);
    if target.Some? && |selected| > 0 then
      AssignOrgSet(xs, target.value, selected);
      Assign(xs, target, selected)
    else
      Assign(xs, target, selected)
  }

  /** `handleDelete`: once confirmed, every path with the id goes and all
      others stay, in order; unconfirmed, nothing happens. */
  function HandleDelete(xs: seq<LearningPath>, id: Id, confirmed: bool): (r: seq<LearningPath>)
    ensures !confirmed ==> r == xs
    ensures confirmed ==> forall i | 0 <= i < |r| :: r[i].id != id && r[i] in xs
    ensures confirmed ==> forall i | 0 <= i < |xs| && xs[i].id != id :: xs[i] in r
    ensures Subseq(r, xs)
    ensures AssignmentsDistinct(xs) ==> AssignmentsDistinct(r)
  {
    if confirmed then
      DeleteKeepsOrder(xs, id);
      Delete(xs, id)
    else
      SubseqRefl(xs);
      xs
  }

  /* ---------------------------------------------------------------------
     Summary cards
     --------------------------------------------------------------------- */

  predicate IsPublished(p: LearningPath) {
    p.form.status == Published
  }

  function Modules(p: LearningPath): int {
    p.form.modules
  }

  /** The "Published" card: `learningPaths.filter(p => p.status === "published").length`.
      It never exceeds the number of paths, reaches it exactly when every
      path is published, and is 0 exactly when none is. */
  function PublishedCount(paths: seq<LearningPath>): (n: nat)
    ensures n <= |paths|
    ensures n == |paths| <==> forall i | 0 <= i < |paths| :: paths[i].form.status == Published
    ensures n == 0 <==> forall i | 0 <= i < |paths| :: paths[i].form.status == Draft
  {
    Count(paths, IsPublished)
  }

  /** The "Total Modules" card: `learningPaths.reduce((sum, p) => sum + p.modules, 0)`;
      never negative while no module count is. */
  function TotalModules(paths: seq<LearningPath>): (t: int)
    ensures (forall i | 0 <= i < |paths| :: paths[i].form.modules >= 0) ==> t >= 0
  {
    Sum(paths, Modules)
  }

  /** The "Enrolled Organizations" card:
      `new Set(learningPaths.flatMap(p => p.enrolledOrgs)).size`. */
  function EnrolledOrganizations(paths: seq<LearningPath>): (n: nat)
    ensures n <= Sum(paths, OrgCount)
    ensures n == 0 <==> forall i | 0 <= i < |paths| :: |paths[i].rest| == 0
  {
    DistinctOrgs(paths)
  }

  /** Creating adds the new path to the published count when it is created
      as published, and adds its modules to the total. */
  lemma CreateCards(xs: seq<LearningPath>, freshId: Id, form: PathForm)
    ensures var r := HandleSubmit(xs, None, form, freshId);
      && PublishedCount(r) == PublishedCount(xs) + (if form.status == Published then 1 else 0)
      && TotalModules(r) == TotalModules(xs) + form.modules
      && EnrolledOrganizations(r) == EnrolledOrganizations(xs)
  {
    var p := Record(freshId, form, []);
    FilterAppend(xs, [p], IsPublished);
    SumAppend(xs, [p], Modules);
  }

  /** Editing keeps the enrolment card; the module total moves by what the
      edited paths' module counts moved. */
  lemma EditCards(xs: seq<LearningPath>, id: Id, form: PathForm)
    ensures var r := HandleSubmit(xs, Some(id), form, 0);
      && EnrolledOrganizations(r) == EnrolledOrganizations(xs)
      && |r| == |xs|
      && TotalModules(Delete(r, id)) == TotalModules(Delete(xs, id))
  {
    DeleteAfterEdit(xs, id, form);
  }

  /** Deleting takes exactly the removed paths' modules off the total, and
      can only lower the other cards. */
  lemma DeleteCards(xs: seq<LearningPath>, id: Id)
    ensures var r := HandleDelete(xs, id, true);
      && PublishedCount(r) <= PublishedCount(xs)
      && TotalModules(r) == TotalModules(xs) - TotalModules(WithId(xs, id))
      && EnrolledOrganizations(r) <= EnrolledOrganizations(xs)
  {
    DeleteSplit(xs, id, Modules);
    DeleteCount(xs, id, IsPublished);
    DeleteShrinksOrgs(xs, id);
  }

}

=== FILE: options.dfy ===
/** An optional value: the model's stand-in for a nullable JavaScript value
    (`editingAssessment`, `assigningPath`, ... are `T | null`). */
module Options {

  datatype Option<+T> = None | Some(value: T)

}

=== FILE: organizations.dfy ===
/** The organization manager: create/edit/delete of organizations and the
    summary cards. The admin, student and learning-path counts an
    organization carries are stored numbers, not derived from the user or
    learning-path lists. */
module Organizations {
  import opened Options
  import opened Seqs
  import opened Records

  /** The create/edit dialog's `formData`. */
  datatype OrgForm = OrgForm(name: string, description: string, status: Activity)

  /** The counts only creation sets (all zero for a new organization). */
  datatype Counts = Counts(adminCount: int, studentCount: int, learningPaths: int)

  type Organization = Record<OrgForm, Counts>

  /** A row's "total" cell: `adminCount + studentCount`. */
  function RowTotal(o: Organization): int {
    o.rest.adminCount + o.rest.studentCount
  }

  function Admins(o: Organization): int {
    o.rest.adminCount
  }

  function Students(o: Organization): int {
    o.rest.studentCount
  }

  predicate IsActive(o: Organization) {
    o.form.status == Active
  }

  /* ---------------------------------------------------------------------
     Handlers
     --------------------------------------------------------------------- */

  /** `handleSubmit`: with an organization being edited, every organization
      with its id takes the form's name, description and status and keeps
      its counts; otherwise a new organization with zero counts is appended.
      Either way the "Total Users" card does not move. */
  function HandleSubmit(orgs: seq<Organization>, editing: Option<Id>, form: OrgForm, freshId: Id): (r: seq<Organization>)
    ensures editing.Some? ==> |r| == |orgs|
    ensures editing.Some? ==> forall i | 0 <= i < |orgs| ::
      && r[i].id == orgs[i].id
      && r[i].rest == orgs[i].rest
      && r[i].form == (if orgs[i].id == editing.value then form else orgs[i].form)
    ensures editing.None? ==> |r| == |orgs| + 1 && r[..|orgs|] == orgs
    ensures editing.None? ==> r[|orgs|] == Record(freshId, form, Counts(0, 0, 0))
    ensures TotalUsers(r) == TotalUsers(orgs)
  {
    if editing.Some? then
      var r := Edit(orgs, editing.value, form);
      SumPointwise(orgs, r, RowTotal, RowTotal);
      TotalUsersIsRowSum(orgs);
      TotalUsersIsRowSum(r);
      r
    else
      Create(orgs, freshId, form, Counts(0, 0, 0))
  }

  /** `handleDelete`: once confirmed, every organization with the id goes
      and all others stay, in order, and the "Total Users" card loses
      exactly the removed rows' totals; unconfirmed, nothing happens. */
  function HandleDelete(orgs: seq<Organization>, id: Id, confirmed: bool): (r: seq<Organization>)
    ensures !confirmed ==> r == orgs
    ensures confirmed ==> forall i | 0 <= i < |r| :: r[i].id != id && r[i] in orgs
    ensures confirmed ==> forall i | 0 <= i < |orgs| && orgs[i].id != id :: orgs[i] in r
    ensures confirmed ==> TotalUsers(r) == TotalUsers(orgs) - TotalUsers(WithId(orgs, id))
    ensures Subseq(r, orgs)
  {
    if confirmed then
      DeleteKeepsOrder(orgs, id);
      DeleteSplit(orgs, id, RowTotal);
      TotalUsersIsRowSum(orgs);
      TotalUsersIsRowSum(Delete(orgs, id));
      TotalUsersIsRowSum(WithId(orgs, id));
      Delete(orgs, id)
    else
      SubseqRefl(orgs);
      orgs
  }

  /* ---------------------------------------------------------------------
     Summary cards
     --------------------------------------------------------------------- */

  /** The "Active" card: `organizations.filter(org => org.status === "active").length`.
      It reaches the number of organizations exactly when all are active and
      is 0 exactly when all are inactive. */
  function ActiveCount(orgs: seq<Organization>): (n: nat)
    ensures n <= |orgs|
    ensures n == |orgs| <==> forall i | 0 <= i < |orgs| :: orgs[i].form.status == Active
    ensures n == 0 <==> forall i | 0 <= i < |orgs| :: orgs[i].form.status == Inactive
  {
    Count(orgs, IsActive)
  }

  /** The "Total Users" card:
      `organizations.reduce((sum, org) => sum + org.adminCount + org.studentCount, 0)`.
      It is the sum of the rows' totals, so with no negative counts it is
      never negative. */
  function TotalUsers(orgs: seq<Organization>): (t: int)
    ensures t == Sum(orgs, RowTotal)
    ensures (forall i | 0 <= i < |orgs| :: orgs[i].rest.adminCount >= 0 && orgs[i].rest.studentCount >= 0) ==> t >= 0
  {
    if |orgs| == 0 then 0
    else
      var init := orgs[..|orgs| - 1];
      var last := orgs[|orgs| - 1];
      assert orgs == init + [last];
      SumAppend(init, [last], RowTotal);
      TotalUsers(init) + last.rest.adminCount + last.rest.studentCount
  }

  /** The card is the sum of the table's row totals, and so all the admins
      plus all the students. */
  lemma {:induction false} TotalUsersIsRowSum(orgs: seq<Organization>)
    ensures TotalUsers(orgs) == Sum(orgs, RowTotal)
    ensures TotalUsers(orgs) == Sum(orgs, Admins) + Sum(orgs, Students)
  {
    SumAdd(orgs, Admins, Students, RowTotal);
  }

  /** Creating counts the new organization on the "Total" card and, when it
      is created active, on the "Active" card. */
  lemma CreateCards(orgs: seq<Organization>, freshId: Id, form: OrgForm)
    ensures var r := HandleSubmit(orgs, None, form, freshId);
      && |r| == |orgs| + 1
      && ActiveCount(r) == ActiveCount(orgs) + (if form.status == Active then 1 else 0)
  {
    FilterAppend(orgs, [Record(freshId, form, Counts(0, 0, 0))], IsActive);
  }

  /** Deleting removes exactly the rows with the id from the "Total" card
      and can only lower the "Active" card. */
  lemma DeleteCards(orgs: seq<Organization>, id: Id)
    ensures var r := HandleDelete(orgs, id, true);
      && |r| == |orgs| - |WithId(orgs, id)|
      && ActiveCount(r) <= ActiveCount(orgs)
  {
    DeleteSplit(orgs, id, RowTotal);
    DeleteCount(orgs, id, IsActive);
  }

}

=== FILE: records.dfy ===
/** The shape all four managers' handlers share. Each manager keeps a list
    of records keyed by a numeric `id`:
    - create appends `{ id: Date.now(), ...formData, <fields set to zero or empty> }`,
    - edit maps the list, replacing a record whose id matches by
      `{ ...record, ...formData }`,
    - delete filters the id out (after `window.confirm`).
    A record is modelled as its id, the part the edit form spreads over it
    (`form`) and the part only creation sets (`rest`). */
module Records {
  import opened Seqs

  /** A record id: `Date.now()` for created records, small integers in the
      fixtures. Nothing makes ids unique. */
  type Id = int

  /** The `"active" | "inactive"` status of users and organizations. */
  datatype Activity = Active | Inactive

  datatype Record<F, R> = Record(id: Id, form: F, rest: R)

  /** Some record in `xs` carries `id`. */
  predicate HasId<F, R>(xs: seq<Record<F, R>>, id: Id) {
    exists i | 0 <= i < |xs| :: xs[i].id == id
  }

  /** Create: `[...xs, { id, ...form, ...rest }]`. */
  function Create<F, R>(xs: seq<Record<F, R>>, id: Id, form: F, rest: R): (r: seq<Record<F, R>>)
    ensures |r| == |xs| + 1
    ensures r[..|xs|] == xs
    ensures r[|xs|].id == id && r[|xs|].form == form && r[|xs|].rest == rest
  {
    xs + [Record(id, form, rest)]
  }

  /** Edit: `xs.map(x => x.id === id ? { ...x, ...form } : x)`. Every record
      with a matching id takes the new form; ids, the creation-only fields
      and every other record stay as they were. */
  function Edit<F, R>(xs: seq<Record<F, R>>, id: Id, form: F): (r: seq<Record<F, R>>)
    ensures |r| == |xs|
    ensures forall i | 0 <= i < |xs| :: r[i].id == xs[i].id && r[i].rest == xs[i].rest
    ensures forall i | 0 <= i < |xs| && xs[i].id == id :: r[i].form == form
    ensures forall i | 0 <= i < |xs| && xs[i].id != id :: r[i] == xs[i]
  {
    if |xs| == 0 then []
    else
      var x := xs[0];
      [if x.id == id then x.(form := form) else x] + Edit(xs[1..], id, form)
  }

  /** Delete: `xs.filter(x => x.id !== id)`. */
  function Delete<F, R>(xs: seq<Record<F, R>>, id: Id): (r: seq<Record<F, R>>)
    ensures |r| <= |xs|
    ensures forall i | 0 <= i < |r| :: r[i].id != id && r[i] in xs
    ensures forall i | 0 <= i < |xs| && xs[i].id != id :: xs[i] in r
  {
    Filter(xs, (x: Record<F, R>) => x.id != id)
  }

  /** The records a delete of `id` removes. */
  function WithId<F, R>(xs: seq<Record<F, R>>, id: Id): seq<Record<F, R>> {
    Filter(xs, (x: Record<F, R>) => x.id == id)
  }

  /** Delete keeps the surviving records in their original order. */
  lemma DeleteKeepsOrder<F, R>(xs: seq<Record<F, R>>, id: Id)
    ensures Subseq(Delete(xs, id), xs)
  {
    FilterSubseq(xs, (x: Record<F, R>) => x.id != id);
  }

  /** Delete splits the list: what survives plus what it removes account for
      every record, and for any sum over the records. */
  lemma DeleteSplit<F, R>(xs: seq<Record<F, R>>, id: Id, f: Record<F, R> -> int)
    ensures |Delete(xs, id)| + |WithId(xs, id)| == |xs|
    ensures Sum(Delete(xs, id), f) + Sum(WithId(xs, id), f) == Sum(xs, f)
  {
    FilterPartition(xs, (x: Record<F, R>) => x.id != id, (x: Record<F, R>) => x.id == id, f);
  }

  /** Deleting can only lower the number of records satisfying `q`. */
  lemma DeleteCount<F, R>(xs: seq<Record<F, R>>, id: Id, q: Record<F, R> -> bool)
    ensures |Filter(Delete(xs, id), q)| <= |Filter(xs, q)|
  {
    FilterMonotone(xs, (x: Record<F, R>) => x.id != id, q);
  }

  /** Deleting an id that no record carries changes nothing. */
  lemma DeleteMissing<F, R>(xs: seq<Record<F, R>>, id: Id)
    requires !HasId(xs, id)
    ensures Delete(xs, id) == xs
  {
    FilterKeepsAll(xs, (x: Record<F, R>) => x.id != id);
  }

  /** Deleting twice is deleting once. */
  lemma DeleteIdempotent<F, R>(xs: seq<Record<F, R>>, id: Id)
    ensures Delete(Delete(xs, id), id) == Delete(xs, id)
  {
    DeleteMissing(Delete(xs, id), id);
  }

  /** Deleting a just-created record whose id was fresh restores the list. */
  lemma DeleteUndoesCreate<F, R>(xs: seq<Record<F, R>>, id: Id, form: F, rest: R)
    requires !HasId(xs, id)
    ensures Delete(Create(xs, id, form, rest), id) == xs
  {
    var p := (x: Record<F, R>) => x.id != id;
    FilterAppend(xs, [Record(id, form, rest)], p);
    DeleteMissing(xs, id);
  }

  /** Editing a record and then deleting it is the same as deleting it. */
  lemma {:induction false} DeleteAfterEdit<F, R>(xs: seq<Record<F, R>>, id: Id, form: F)
    ensures Delete(Edit(xs, id, form), id) == Delete(xs, id)
  {
    if |xs| > 0 {
      DeleteAfterEdit(xs[1..], id, form);
      assert Edit(xs, id, form)[1..] == Edit(xs[1..], id, form);
    }
  }

  /** The last edit wins: a second edit of the same id overwrites the first. */
  lemma EditTwice<F, R>(xs: seq<Record<F, R>>, id: Id, form1: F, form2: F)
    ensures Edit(Edit(xs, id, form1), id, form2) == Edit(xs, id, form2)
  {
  }

  /** Submitting the edit dialog with the values it was opened with (the
      form `handleEdit` copies out of the record) changes nothing. */
  lemma EditUnchanged<F, R>(xs: seq<Record<F, R>>, id: Id, form: F)
    requires forall i | 0 <= i < |xs| && xs[i].id == id :: xs[i].form == form
    ensures Edit(xs, id, form) == xs
  {
  }

}

=== FILE: seqs.dfy ===
/** Sequence utilities shared by the manager models: duplicate-free sequences
    and the de-duplication performed by JavaScript's insertion-ordered `Set`,
    order-preserving filtering (`Array.prototype.filter`) and summation
    (`reduce((sum, x) => sum + f(x), 0)`). */
module Seqs {

  /** No element occurs twice in `s`. */
  predicate NoDups<T(==)>(s: seq<T>) {
    forall i, j | 0 <= i < j < |s| :: s[i] != s[j]
  }

  /** The elements of `s`, as a set. */
  function Elems<T(==)>(s: seq<T>): set<T> {
    set x | x in s
  }

  /** `a` occurs in `b` in order, possibly with gaps. */
  ghost predicate Subseq<T>(a: seq<T>, b: seq<T>)
    decreases |b|
  {
    || |a| == 0
    || (&& |b| > 0
        && ((a[0] == b[0] && Subseq(a[1..], b[1..])) || Subseq(a, b[1..])))
  }

  /** The position of the first occurrence of `x` in `s`. */
  function FirstIndex<T(==)>(s: seq<T>, x: T): (i: nat)
    requires x in s
    ensures i < |s| && s[i] == x
    ensures forall j | 0 <= j < i :: s[j] != x
  {
    if s[0] == x then 0 else 1 + FirstIndex(s[1..], x)
  }

  /* ---------------------------------------------------------------------
     De-duplication: `[...new Set(s)]`
     --------------------------------------------------------------------- */

  /** `[...new Set(s)]`: a JavaScript `Set` built from `s` keeps the first
      occurrence of every element, in insertion order. Each element of `s`
      is added in turn and skipped if already present. */
  function Dedup<T(==)>(s: seq<T>): (r: seq<T>)
    ensures NoDups(r)
    ensures forall i | 0 <= i < |r| :: r[i] in s
    ensures forall i | 0 <= i < |s| :: s[i] in r
    ensures |r| <= |s|
  {
    if |s| == 0 then []
    else
      var d := Dedup(s[..|s| - 1]);
      var x := s[|s| - 1];
      assert s == s[..|s| - 1] + [x];
      if x in d then d else d + [x]
  }

  /** A sequence without repeats passes through `Set` unchanged. */
  lemma {:induction false} DedupOfDistinct<T>(s: seq<T>)
    requires NoDups(s)
    ensures Dedup(s) == s
  {
    if |s| > 0 {
      var p := s[..|s| - 1];
      DedupOfDistinct(p);
      assert s[|s| - 1] !in p by {
        forall i | 0 <= i < |p| ensures p[i] != s[|s| - 1] {
          assert p[i] == s[i];
        }
      }
      assert s == p + [s[|s| - 1]];
    }
  }

  /** Appending elements never reorders or drops what a `Set` already holds. */
  lemma {:induction false} DedupPrefix<T>(a: seq<T>, b: seq<T>)
    ensures Dedup(a) <= Dedup(a + b)
  {
    if |b| == 0 {
      assert a + b == a;
    } else {
      var b' := b[..|b| - 1];
      DedupPrefix(a, b');
      assert (a + b)[..|a + b| - 1] == a + b';
    }
  }

  /** Adding elements that are all present already leaves the `Set` as it was. */
  lemma {:induction false} DedupAbsorbs<T>(a: seq<T>, b: seq<T>)
    requires forall x | x in b :: x in a
    ensures Dedup(a + b) == Dedup(a)
  {
    if |b| == 0 {
      assert a + b == a;
    } else {
      var b' := b[..|b| - 1];
      DedupAbsorbs(a, b');
      assert (a + b)[..|a + b| - 1] == a + b';
      assert b[|b| - 1] in b;
    }
  }

  /** The elements of `[...new Set(s)]` appear in the order in which they
      first occur in `s`. With `NoDups` and the membership clause of `Dedup`
      this pins the result down completely. */
  lemma {:induction false} DedupFirstOccurrenceOrder<T>(s: seq<T>)
    ensures forall i, j | 0 <= i < j < |Dedup(s)| ::
      FirstIndex(s, Dedup(s)[i]) < FirstIndex(s, Dedup(s)[j])
  {
    if |s| > 0 {
      var p := s[..|s| - 1];
      var x := s[|s| - 1];
      assert s == p + [x];
      DedupFirstOccurrenceOrder(p);
      var d := Dedup(p);
      forall y | y in p ensures FirstIndex(s, y) == FirstIndex(p, y) {
        var k := FirstIndex(p, y);
        assert s[k] == y;
      }
      if x !in d {
        assert x !in p;
        assert FirstIndex(s, x) == |p|;
        forall i, j | 0 <= i < j < |d + [x]|
          ensures FirstIndex(s, (d + [x])[i]) < FirstIndex(s, (d + [x])[j])
        {
          assert (d + [x])[i] == d[i];
          if j < |d| {
            assert (d + [x])[j] == d[j];
          }
        }
      }
    }
  }

  /* ---------------------------------------------------------------------
     Merge: `[...new Set([...a, ...b])]`
     --------------------------------------------------------------------- */

  /** `[...new Set([...a, ...b])]`: the union of `a` and `b` without repeats. */
  function Merge<T(==)>(a: seq<T>, b: seq<T>): (r: seq<T>)
    ensures NoDups(r)
    ensures forall i | 0 <= i < |r| :: r[i] in a || r[i] in b
    ensures forall i | 0 <= i < |a| :: a[i] in r
    ensures forall i | 0 <= i < |b| :: b[i] in r
  {
    var ab := a + b;
    assert forall i | 0 <= i < |a| :: ab[i] == a[i];
    assert forall i | 0 <= i < |b| :: ab[|a| + i] == b[i];
    Dedup(ab)
  }

  /** When the existing list `a` is free of repeats it survives the merge
      as a prefix, and at most `|b|` new entries follow it. */
  lemma {:induction false} MergeKeepsExisting<T>(a: seq<T>, b: seq<T>)
    requires NoDups(a)
    ensures a <= Merge(a, b)
    ensures |Merge(a, b)| <= |a| + |b|
  {
    DedupPrefix(a, b);
    DedupOfDistinct(a);
  }

  /** `r` lists the union of `a` and `b`, each element once; an `a` without
      repeats stays in front, in its order. */
  ghost predicate IsMergeOf<T>(r: seq<T>, a: seq<T>, b: seq<T>) {
    && NoDups(r)
    && (forall k | 0 <= k < |r| :: r[k] in a || r[k] in b)
    && (forall k | 0 <= k < |a| :: a[k] in r)
    && (forall k | 0 <= k < |b| :: b[k] in r)
    && (NoDups(a) ==> a <= r)
  }

  /** `Merge` computes the union of its arguments. */
  lemma MergeIsUnion<T>(a: seq<T>, b: seq<T>)
    ensures IsMergeOf(Merge(a, b), a, b)
  {
    if NoDups(a) {
      MergeKeepsExisting(a, b);
    }
  }

  /** A union that adds nothing new to a repeat-free `a` is `a` itself. */
  lemma MergeOfPresent<T>(r: seq<T>, a: seq<T>, b: seq<T>)
    requires IsMergeOf(r, a, b)
    requires NoDups(a)
    requires forall k | 0 <= k < |b| :: b[k] in a
    ensures r == a
  {
    ElemsCard(r);
    ElemsCard(a);
    assert Elems(r) == Elems(a) by {
      forall x | x in Elems(a) ensures x in Elems(r) {
        var k :| 0 <= k < |a| && a[k] == x;
      }
    }
    assert |r| == |a|;
    assert r[..|a|] == a;
  }

  /** Merging the same selection a second time changes nothing. */
  lemma {:induction false} MergeIdempotent<T>(a: seq<T>, b: seq<T>)
    ensures Merge(Merge(a, b), b) == Merge(a, b)
  {
    var m := Merge(a, b);
    DedupAbsorbs(m, b);
    DedupOfDistinct(m);
  }

  /** Merging entries that are all present already is a no-op on a
      repeat-free list. */
  lemma {:induction false} MergePresent<T>(a: seq<T>, b: seq<T>)
    requires NoDups(a)
    requires forall x | x in b :: x in a
    ensures Merge(a, b) == a
  {
    DedupAbsorbs(a, b);
    DedupOfDistinct(a);
  }

  /* ---------------------------------------------------------------------
     Filter: `xs.filter(p)`
     --------------------------------------------------------------------- */

  /** `xs.filter(p)`: the elements of `xs` that satisfy `p`, in their order. */
  function Filter<T>(xs: seq<T>, p: T -> bool): (r: seq<T>)
    ensures |r| <= |xs|
    ensures forall i | 0 <= i < |r| :: r[i] in xs && p(r[i])
    ensures forall i | 0 <= i < |xs| && p(xs[i]) :: xs[i] in r
  {
    if |xs| == 0 then []
    else
      var rest := Filter(xs[1..], p);
      assert xs == [xs[0]] + xs[1..];
      if p(xs[0]) then [xs[0]] + rest else rest
  }

  /** `xs.filter(p)` keeps the surviving elements in their original order. */
  lemma {:induction false} FilterSubseq<T>(xs: seq<T>, p: T -> bool)
    ensures Subseq(Filter(xs, p), xs)
  {
    if |xs| > 0 {
      FilterSubseq(xs[1..], p);
      var rest := Filter(xs[1..], p);
      if p(xs[0]) {
        assert ([xs[0]] + rest)[1..] == rest;
      }
    }
  }

  /** Every sequence occurs in itself. */
  lemma {:induction false} SubseqRefl<T>(xs: seq<T>)
    ensures Subseq(xs, xs)
  {
    if |xs| > 0 {
      SubseqRefl(xs[1..]);
    }
  }

  /** `xs.filter(p).length`: how many elements pass. */
  function Count<T>(xs: seq<T>, p: T -> bool): (n: nat)
    ensures n <= |xs|
    ensures n == |xs| <==> forall i | 0 <= i < |xs| :: p(xs[i])
    ensures n == 0 <==> forall i | 0 <= i < |xs| :: !p(xs[i])
  {
    FilterCountAll(xs, p);
    var r := Filter(xs, p);
    assert |r| > 0 ==> exists j | 0 <= j < |xs| :: xs[j] == r[0];
    |r|
  }

  /** A filter keeps its input's length exactly when every element passes. */
  lemma {:induction false} FilterCountAll<T>(xs: seq<T>, p: T -> bool)
    ensures |Filter(xs, p)| == |xs| <==> forall i | 0 <= i < |xs| :: p(xs[i])
  {
    if |xs| > 0 {
      FilterCountAll(xs[1..], p);
      var rest := Filter(xs[1..], p);
      if p(xs[0]) {
        assert Filter(xs, p) == [xs[0]] + rest;
        if forall i | 0 <= i < |xs[1..]| :: p(xs[1..][i]) {
          forall i | 0 <= i < |xs| ensures p(xs[i]) {
            if i > 0 {
              assert xs[i] == xs[1..][i - 1];
            }
          }
        }
      }
      if forall i | 0 <= i < |xs| :: p(xs[i]) {
        assert forall i | 0 <= i < |xs[1..]| :: xs[1..][i] == xs[i + 1];
      }
    }
  }

  /** Filtering first by `p` can only lower the number of elements that
      satisfy `q`. */
  lemma {:induction false} FilterMonotone<T>(xs: seq<T>, p: T -> bool, q: T -> bool)
    ensures |Filter(Filter(xs, p), q)| <= |Filter(xs, q)|
  {
    if |xs| > 0 {
      FilterMonotone(xs[1..], p, q);
      var rest := Filter(xs[1..], p);
      if p(xs[0]) {
        assert Filter(xs, p) == [xs[0]] + rest;
        assert ([xs[0]] + rest)[1..] == rest;
      }
    }
  }

  /** Filtering with a predicate every element satisfies keeps everything. */
  lemma {:induction false} FilterKeepsAll<T>(xs: seq<T>, p: T -> bool)
    requires forall i | 0 <= i < |xs| :: p(xs[i])
    ensures Filter(xs, p) == xs
  {
    if |xs| > 0 {
      FilterKeepsAll(xs[1..], p);
      assert xs == [xs[0]] + xs[1..];
    }
  }

  /** Filtering distributes over concatenation. */
  lemma {:induction false} FilterAppend<T>(a: seq<T>, b: seq<T>, p: T -> bool)
    ensures Filter(a + b, p) == Filter(a, p) + Filter(b, p)
  {
    if |a| == 0 {
      assert a + b == b;
    } else {
      var ab := a + b;
      assert ab[0] == a[0];
      assert ab[1..] == a[1..] + b;
      FilterAppend(a[1..], b, p);
      var head: seq<T> := if p(a[0]) then [a[0]] else [];
      assert Filter(ab, p) == head + Filter(a[1..] + b, p);
      assert Filter(a, p) == head + Filter(a[1..], p);
    }
  }

  /** Filtering by `p` and then by `q` is filtering by their conjunction. */
  lemma {:induction false} FilterFilter<T>(xs: seq<T>, p: T -> bool, q: T -> bool, pq: T -> bool)
    requires forall x :: pq(x) == (p(x) && q(x))
    ensures Filter(Filter(xs, p), q) == Filter(xs, pq)
  {
    if |xs| > 0 {
      FilterFilter(xs[1..], p, q, pq);
      var rest := Filter(xs[1..], p);
      if p(xs[0]) {
        assert Filter(xs, p) == [xs[0]] + rest;
        assert ([xs[0]] + rest)[1..] == rest;
      }
    }
  }

  /** Filtering depends only on which elements the predicate accepts. */
  lemma {:induction false} FilterExt<T>(xs: seq<T>, p: T -> bool, q: T -> bool)
    requires forall x :: p(x) == q(x)
    ensures Filter(xs, p) == Filter(xs, q)
  {
    if |xs| > 0 {
      FilterExt(xs[1..], p, q);
    }
  }

  /** A repeat-free sequence stays repeat-free under filtering. */
  lemma {:induction false} FilterDistinct<T>(xs: seq<T>, p: T -> bool)
    requires NoDups(xs)
    ensures NoDups(Filter(xs, p))
  {
    if |xs| > 0 {
      assert NoDups(xs[1..]) by {
        forall i, j | 0 <= i < j < |xs[1..]| ensures xs[1..][i] != xs[1..][j] {
          assert xs[1..][i] == xs[i + 1] && xs[1..][j] == xs[j + 1];
        }
      }
      FilterDistinct(xs[1..], p);
      var rest := Filter(xs[1..], p);
      if p(xs[0]) {
        assert xs[0] !in xs[1..] by {
          forall k | 0 <= k < |xs[1..]| ensures xs[1..][k] != xs[0] {
            assert xs[1..][k] == xs[k + 1];
          }
        }
        assert xs[0] !in rest;
        var r := [xs[0]] + rest;
        forall i, j | 0 <= i < j < |r| ensures r[i] != r[j] {
          assert r[j] == rest[j - 1];
          if i > 0 {
            assert r[i] == rest[i - 1];
          }
        }
      }
    }
  }

  /* ---------------------------------------------------------------------
     Sum: `xs.reduce((sum, x) => sum + f(x), 0)`
     --------------------------------------------------------------------- */

  /** `xs.reduce((sum, x) => sum + f(x), 0)`, summed from the front (on
      unbounded integers the grouping does not matter). Non-negative terms
      give a non-negative sum. */
  function Sum<T>(xs: seq<T>, f: T -> int): (s: int)
    ensures (forall i | 0 <= i < |xs| :: f(xs[i]) >= 0) ==> s >= 0
  {
    if |xs| == 0 then 0
    else
      assert forall i | 0 <= i < |xs[1..]| :: xs[1..][i] == xs[i + 1];
      f(xs[0]) + Sum(xs[1..], f)
  }

  /** Summation distributes over concatenation. */
  lemma {:induction false} SumAppend<T>(a: seq<T>, b: seq<T>, f: T -> int)
    ensures Sum(a + b, f) == Sum(a, f) + Sum(b, f)
  {
    if |a| == 0 {
      assert a + b == b;
    } else {
      SumAppend(a[1..], b, f);
      assert (a + b)[1..] == a[1..] + b;
      assert (a + b)[0] == a[0];
    }
  }

  /** Two sequences whose elements agree position by position under `f` and
      `g` have the same sums. */
  lemma {:induction false} SumPointwise<T, U>(a: seq<T>, b: seq<U>, f: T -> int, g: U -> int)
    requires |a| == |b|
    requires forall i | 0 <= i < |a| :: f(a[i]) == g(b[i])
    ensures Sum(a, f) == Sum(b, g)
  {
    if |a| > 0 {
      SumPointwise(a[1..], b[1..], f, g);
      assert f(a[0]) == g(b[0]);
    }
  }

  /** The sum of `f + g` is the sum of `f` plus the sum of `g`. */
  lemma {:induction false} SumAdd<T>(xs: seq<T>, f: T -> int, g: T -> int, fg: T -> int)
    requires forall x :: fg(x) == f(x) + g(x)
    ensures Sum(xs, fg) == Sum(xs, f) + Sum(xs, g)
  {
    if |xs| > 0 {
      SumAdd(xs[1..], f, g, fg);
    }
  }

  /** Splitting `xs` by `p` and by its negation `q` partitions both the
      elements and any sum over them. */
  lemma {:induction false} FilterPartition<T>(xs: seq<T>, p: T -> bool, q: T -> bool, f: T -> int)
    requires forall x :: q(x) == !p(x)
    ensures |Filter(xs, p)| + |Filter(xs, q)| == |xs|
    ensures Sum(Filter(xs, p), f) + Sum(Filter(xs, q), f) == Sum(xs, f)
  {
    if |xs| > 0 {
      FilterPartition(xs[1..], p, q, f);
      var rp := Filter(xs[1..], p);
      var rq := Filter(xs[1..], q);
      if p(xs[0]) {
        assert Filter(xs, p) == [xs[0]] + rp;
        assert ([xs[0]] + rp)[1..] == rp;
        assert Filter(xs, q) == rq;
      } else {
        assert Filter(xs, q) == [xs[0]] + rq;
        assert ([xs[0]] + rq)[1..] == rq;
        assert Filter(xs, p) == rp;
      }
    }
  }

  /* ---------------------------------------------------------------------
     Cardinality
     --------------------------------------------------------------------- */

  /** A subset is no larger than its superset. */
  lemma SubsetCard<T>(a: set<T>, b: set<T>)
    requires a <= b
    ensures |a| <= |b|
  {
    assert b == a + (b - a);
  }

  /** A `Set` built from `s` is no larger than `s`, and exactly as large
      when `s` has no repeats. */
  lemma {:induction false} ElemsCard<T>(s: seq<T>)
    ensures |Elems(s)| <= |s|
    ensures NoDups(s) ==> |Elems(s)| == |s|
  {
    if |s| > 0 {
      ElemsCard(s[1..]);
      assert Elems(s) == {s[0]} + Elems(s[1..]);
      if NoDups(s) {
        assert NoDups(s[1..]) by {
          forall i, j | 0 <= i < j < |s[1..]| ensures s[1..][i] != s[1..][j] {
            assert s[1..][i] == s[i + 1] && s[1..][j] == s[j + 1];
          }
        }
        assert s[0] !in Elems(s[1..]) by {
          forall k | 0 <= k < |s[1..]| ensures s[1..][k] != s[0] {
            assert s[1..][k] == s[k + 1];
          }
        }
      }
    }
  }

}

=== FILE: users.dfy ===
/** The user manager: create/edit/delete of users, the organization and
    role filter over the user table, and the four summary cards. */
module Users {
  import opened Options
  import opened Seqs
  import opened Records

  datatype Role = Admin | Student

  /** The role as the filter and the table spell it. */
  function RoleName(r: Role): (s: string)
    ensures s == "admin" <==> r == Admin
    ensures s == "student" <==> r == Student
  {
    match r
    case Admin => "admin"
    case Student => "student"
  }

  /** The create/edit dialog's `formData`. A user's organization is a free
      string, empty until one is picked. */
  datatype UserForm = UserForm(
    name: string,
    email: string,
    role: Role,
    organization: string,
    status: Activity)

  /** The fields only creation sets: the join date and the number of
      learning paths (zero for a new user). */
  datatype Joined = Joined(joinDate: string, learningPaths: int)

  type User = Record<UserForm, Joined>

  /** The filter value that lets everything through. */
  const AllValues: string := "all"

  /* ---------------------------------------------------------------------
     The table filter
     --------------------------------------------------------------------- */

  /** `filteredUsers`' callback: the organization filter is "all" or the
      user's organization, and the role filter is "all" or the user's role. */
  predicate Matches(filterOrg: string, filterRole: string, u: User): (b: bool)
    ensures filterOrg == AllValues && filterRole == AllValues ==> b
    ensures b && filterRole == "admin" ==> u.form.role == Admin
    ensures b && filterRole == "student" ==> u.form.role == Student
    ensures b && filterOrg != AllValues ==> u.form.organization == filterOrg
  {
    && (filterOrg == AllValues || u.form.organization == filterOrg)
    && (filterRole == AllValues || RoleName(u.form.role) == filterRole)
  }

  function Criterion(filterOrg: string, filterRole: string): User -> bool {
    (u: User) => Matches(filterOrg, filterRole, u)
  }

  /** `filteredUsers`: the rows the table shows. A row is shown exactly when
      it passes both filters. */
  function FilteredUsers(users: seq<User>, filterOrg: string, filterRole: string): (r: seq<User>)
    ensures |r| <= |users|
    ensures forall i | 0 <= i < |r| ::
      && r[i] in users
      && (filterOrg == AllValues || r[i].form.organization == filterOrg)
      && (filterRole == AllValues || RoleName(r[i].form.role) == filterRole)
    ensures forall i | 0 <= i < |users|
      && (filterOrg == AllValues || users[i].form.organization == filterOrg)
      && (filterRole == AllValues || RoleName(users[i].form.role) == filterRole) ::
      users[i] in r
  {
    Filter(users, Criterion(filterOrg, filterRole))
  }

  /** The shown rows keep the order of the user list. */
  lemma FilteredKeepsOrder(users: seq<User>, filterOrg: string, filterRole: string)
    ensures Subseq(FilteredUsers(users, filterOrg, filterRole), users)
  {
    FilterSubseq(users, Criterion(filterOrg, filterRole));
  }

  /** With both filters on "all" (the initial state) every user is shown. */
  lemma FilterAllShowsEveryone(users: seq<User>)
    ensures FilteredUsers(users, AllValues, AllValues) == users
  {
    FilterKeepsAll(users, Criterion(AllValues, AllValues));
  }

  /** The two filters are independent: filtering by organization and then
      by role is the combined filter. */
  lemma FilterComposes(users: seq<User>, filterOrg: string, filterRole: string)
    ensures FilteredUsers(FilteredUsers(users, filterOrg, AllValues), AllValues, filterRole)
         == FilteredUsers(users, filterOrg, filterRole)
  {
    FilterFilter(users, Criterion(filterOrg, AllValues), Criterion(AllValues, filterRole), Criterion(filterOrg, filterRole));
  }

  /** Within any organization filter, the rows shown for "admin" and for
      "student" together are as many as those shown for "all". */
  lemma RoleFilterPartition(users: seq<User>, filterOrg: string)
    ensures |FilteredUsers(users, filterOrg, "admin")| + |FilteredUsers(users, filterOrg, "student")|
         == |FilteredUsers(users, filterOrg, AllValues)|
  {
    var inOrg := FilteredUsers(users, filterOrg, AllValues);
    FilterFilter(users, Criterion(filterOrg, AllValues), Criterion(AllValues, "admin"), Criterion(filterOrg, "admin"));
    FilterFilter(users, Criterion(filterOrg, AllValues), Criterion(AllValues, "student"), Criterion(filterOrg, "student"));
    FilterPartition(inOrg, Criterion(AllValues, "admin"), Criterion(AllValues, "student"), (u: User) => 0);
  }

  /** The role filter set to "admin" shows as many rows as the Admins card
      counts. */
  lemma AdminFilterMatchesCard(users: seq<User>)
    ensures |FilteredUsers(users, AllValues, "admin")| == AdminCount(users)
  {
    FilterExt(users, Criterion(AllValues, "admin"), IsAdmin);
  }

  /* ---------------------------------------------------------------------
     Handlers
     --------------------------------------------------------------------- */

  /** `handleSubmit`: with a user being edited, every user with its id takes
      the form's fields and keeps its id, join date and learning-path count;
      otherwise a new user is appended, joined `today` with no learning
      paths. */
  function HandleSubmit(users: seq<User>, editing: Option<Id>, form: UserForm, freshId: Id, today: string): (r: seq<User>)
    ensures editing.Some? ==> |r| == |users|
    ensures editing.Some? ==> forall i | 0 <= i < |users| ::
      && r[i].id == users[i].id
      && r[i].rest == users[i].rest
      && r[i].form == (if users[i].id == editing.value then form else users[i].form)
    ensures editing.None? ==> |r| == |users| + 1 && r[..|users|] == users
    ensures editing.None? ==> r[|users|] == Record(freshId, form, Joined(today, 0))
  {
    if editing.Some? then Edit(users, editing.value, form)
    else Create(users, freshId, form, Joined(today, 0))
  }

  /** `handleDelete`: once confirmed, every user with the id goes and all
      others stay, in order; unconfirmed, nothing happens. */
  function HandleDelete(users: seq<User>, id: Id, confirmed: bool): (r: seq<User>)
    ensures !confirmed ==> r == users
    ensures confirmed ==> forall i | 0 <= i < |r| :: r[i].id != id && r[i] in users
    ensures confirmed ==> forall i | 0 <= i < |users| && users[i].id != id :: users[i] in r
    ensures Subseq(r, users)
  {
    if confirmed then
      DeleteKeepsOrder(users, id);
      Delete(users, id)
    else
      SubseqRefl(users);
      users
  }

  /* ---------------------------------------------------------------------
     Summary cards
     --------------------------------------------------------------------- */

  predicate IsAdmin(u: User) {
    u.form.role == Admin
  }

  predicate IsStudent(u: User) {
    u.form.role == Student
  }

  predicate IsActive(u: User) {
    u.form.status == Active
  }

  /** The "Admins" card: `users.filter(user => user.role === "admin").length`.
      It reaches the user total exactly when every user is an admin and is 0
      exactly when every user is a student. */
  function AdminCount(users: seq<User>): (n: nat)
    ensures n <= |users|
    ensures n == |users| <==> forall i | 0 <= i < |users| :: users[i].form.role == Admin
    ensures n == 0 <==> forall i | 0 <= i < |users| :: users[i].form.role == Student
  {
    Count(users, IsAdmin)
  }

  /** The "Students" card: `users.filter(user => user.role === "student").length`.
      It reaches the user total exactly when every user is a student and is 0
      exactly when every user is an admin. */
  function StudentCount(users: seq<User>): (n: nat)
    ensures n <= |users|
    ensures n == |users| <==> forall i | 0 <= i < |users| :: users[i].form.role == Student
    ensures n == 0 <==> forall i | 0 <= i < |users| :: users[i].form.role == Admin
  {
    Count(users, IsStudent)
  }

  /** The "Active Users" card: `users.filter(user => user.status === "active").length`.
      It reaches the user total exactly when every user is active and is 0
      exactly when every user is inactive. */
  function ActiveCount(users: seq<User>): (n: nat)
    ensures n <= |users|
    ensures n == |users| <==> forall i | 0 <= i < |users| :: users[i].form.status == Active
    ensures n == 0 <==> forall i | 0 <= i < |users| :: users[i].form.status == Inactive
  {
    Count(users, IsActive)
  }

  /** Every user is an admin or a student, never both: the two role cards
      add up to the "Total Users" card. */
  lemma RolesPartitionUsers(users: seq<User>)
    ensures AdminCount(users) + StudentCount(users) == |users|
  {
    FilterPartition(users, IsAdmin, IsStudent, (u: User) => 0);
  }

  /** Creating a user adds one to the total and one to the card of the
      user's role and, when created active, to the active card. */
  lemma CreateCounts(users: seq<User>, freshId: Id, form: UserForm, today: string)
    ensures var r := HandleSubmit(users, None, form, freshId, today);
      && |r| == |users| + 1
      && AdminCount(r) == AdminCount(users) + (if form.role == Admin then 1 else 0)
      && StudentCount(r) == StudentCount(users) + (if form.role == Student then 1 else 0)
      && ActiveCount(r) == ActiveCount(users) + (if form.status == Active then 1 else 0)
  {
    var u := Record(freshId, form, Joined(today, 0));
    FilterAppend(users, [u], IsAdmin);
    FilterAppend(users, [u], IsStudent);
    FilterAppend(users, [u], IsActive);
  }

  /** Deleting takes exactly the removed users off the total and can only
      lower the other cards. */
  lemma DeleteCounts(users: seq<User>, id: Id)
    ensures var r := HandleDelete(users, id, true);
      && |r| == |users| - |WithId(users, id)|
      && AdminCount(r) <= AdminCount(users)
      && StudentCount(r) <= StudentCount(users)
      && ActiveCount(r) <= ActiveCount(users)
  {
    DeleteSplit(users, id, (u: User) => 0);
    DeleteCount(users, id, IsAdmin);
    DeleteCount(users, id, IsStudent);
    DeleteCount(users, id, IsActive);
  }

}
